=== FILE: README.md ===
# Tierlist API core: user store and payload schemas

This project models two self-contained pieces of the tierlist backend and proves properties of them.

1. **The in-memory user store** (`src/services/users.ts`). The source keeps one module-level array of records `{id, name, description, password}`. Its functions read it, append to it, merge-update a record by id and cut a record out by id. In the model the array is an explicit `seq<User>`. Every operation is a pure function from the list before to a `Step(users, result)`: the list after, plus the value the source returns. `undefined` becomes `None`. The record shape is taken from `users.ts` itself (numeric id, name, description, password), since that file's imports do not match the shapes declared in `src/types.ts`.
2. **The payload schemas** (`src/types.ts`). Payloads are untyped JSON values (`Json.Json`). A user schema is an object schema of string fields: `ObjectSchema.AcceptsPayload` rejects any payload that is not an object (an array, `null`, a string, a number) and otherwise checks the fields; `ObjectSchema.PayloadIssues` reports such a payload with one root issue. Each field has an optional minimum length, an optional maximum length and an optional email check; the two length bounds carry the messages the source spells out, and the email check has none. The schemas are built with the same `omit`, `pick` and `partial` combinators the source uses (`ObjectSchema`). Each derived view is then proved equal to a field-by-field statement of its rules (`UserSchemas`). `Issues` lists every failed check. The tierlist schemas are predicates over any JSON value, with a validator that finds the first rejected tier (`Tierlist`).

The email grammar of the validation library is a parameter, `isEmail: string -> bool`, of every user-schema member. Nothing is assumed about it.

Files: `wrappers.dfy` (Option), `seqs.dfy` (find / findIndex / splice), `users.dfy` (the store), `users_properties.dfy` (properties relating store operations), `user_ids.dfy` (the id finding below), `json.dfy`, `schema.dfy`, `user_schemas.dfy`, `tierlist.dfy`.

## Model

| member | source | states |
|---|---|---|
| Seqs.FindIndex | src/services/users.ts:66 | `findIndex` finds nothing exactly when no element matches; otherwise it returns a matching position with no match before it |
| Seqs.Find | src/services/users.ts:35 | `find` returns nothing exactly when no element matches; otherwise it returns the element at the first matching position |
| Seqs.RemoveAt | src/services/users.ts:65-68 | `splice(i, 1)` shortens the list by one. Elements before `i` stay put, later ones shift down by one, and the multiset loses exactly the removed element |
| Seqs.RemoveAtInverse | src/services/users.ts:65-68 | putting the spliced element back at its position restores the original list |
| Users.GetUsersNoPassword | src/services/users.ts:22-26 | the stripped list has the same length and order; entry i keeps record i's id, name and description and has no password field |
| Users.FirstIndexOf | src/services/users.ts:66 | `None` exactly when no record has the id; otherwise the position of the first record with it |
| Users.SearchUserById | src/services/users.ts:34-36 | `None` exactly when no record has the id; otherwise the first record with that id, password included |
| Users.SearchUserByIdNoPassword | src/services/users.ts:28-32 | searching the stripped list gives the stripped form of what `searchUserById` finds, and `None` exactly when it finds nothing |
| Users.AddUser | src/services/users.ts:38-43 | appends exactly one record with id = old length + 1 and the given name, description and password; returns it; earlier entries unchanged |
| Users.UpdateUser | src/services/users.ts:45-58 | absent id: list unchanged, `None`. Present id: returns the first match with the patch's fields overriding its own. Length is kept, records with other ids are unchanged, and every record with that id becomes the returned value |
| Users.DeleteUser | src/services/users.ts:60-69 | absent id: list unchanged, `None`. Present id: length drops by one and the first record with that id is cut out; the records before and after it keep their order; the result is a one-element list holding it |
| UsersProperties.InitialUsersSequential | src/services/users.ts:3-16 | the seeded store holds ids 1 and 2 in order, so its ids are unique |
| UsersProperties.SequentialUnique | src/services/users.ts:40 | a store holding ids 1..n has unique ids and does not yet hold id n + 1 |
| UsersProperties.AddKeepsSearches | src/services/users.ts:38-43 | appending never changes which record a search for an already present id finds |
| UsersProperties.AddThenSearch | src/services/users.ts:38-43 | when the derived id is new, searching for it finds exactly the appended record |
| UsersProperties.AddKeepsSequential | src/services/users.ts:38-43 | without deletions the ids stay 1..n, so `addUser` keeps them unique |
| UsersProperties.UpdateThenSearch | src/services/users.ts:45-58 | after an update, searching the id returns exactly what the update returned (`None` for an absent id) |
| UsersProperties.UpdateKeepsIds | src/services/users.ts:54-56 | an update leaves the sequence of ids unchanged and so keeps ids unique |
| UsersProperties.UpdateOverlaysOwnFields | src/services/users.ts:49-56 | when ids are unique, the record with the id becomes its own fields overridden by the patch and every other record is untouched |
| UsersProperties.UpdateEmptyPatch | src/services/users.ts:49-56 | when ids are unique, an empty patch leaves the store unchanged |
| UsersProperties.UpdateIdempotent | src/services/users.ts:45-58 | applying the same patch twice gives the same store and result as applying it once |
| UsersProperties.DeleteShape | src/services/users.ts:60-69 | on a present id the result holds the first match; elements before it keep their positions, later ones shift down by one |
| UsersProperties.DeleteRestores | src/services/users.ts:65-68 | re-inserting the returned record at the first match's position restores the store |
| UsersProperties.DeleteKeepsOtherSearches | src/services/users.ts:60-69 | deleting one id never changes what a search for a different id finds |
| UsersProperties.DeleteRemovesId | src/services/users.ts:60-69 | when ids are unique, the deleted id is no longer present and ids stay unique |
| UserIds.AddUserReusesId | src/services/users.ts:40 | deleting record 1 from the seeded store and then adding a user gives the new record id 2. The store then holds id 2 twice, and searching id 2 finds the old seeded record, not the new one |
| UserIds.MaxId | src/services/users.ts:40 | an upper bound on every stored id that is 0 or held by some record; 0 when no stored id is positive |
| UserIds.AddUserFresh | src/services/users.ts:38-43 | corrected `addUser`: appends one record whose positive id no stored record has, with the given fields |
| UserIds.AddUserFreshKeepsUnique | src/services/users.ts:38-43 | the corrected `addUser` keeps ids unique, and a search for the new id finds the new record |
| UserIds.MaxIdSequential | src/services/users.ts:40 | on a store holding ids 1..n the largest id is n |
| UserIds.AddUserFreshAgrees | src/services/users.ts:38-43 | on a store that was never deleted from, the corrected `addUser` is the original one |
| UserIds.UpdateOverwritesDuplicate | src/services/users.ts:49-56 | on a store holding id 1 twice, an empty patch to id 1 replaces the second record's name, description and password with the first record's |
| ObjectSchema.StringIssues | src/types.ts:6-13 | a string's issues are empty exactly when it meets the minimum, maximum and email checks; each issue names the field, and each check's issue (with that check's bound and message) is reported exactly when that check fails, and no other kind of issue is |
| ObjectSchema.FieldIssues | src/types.ts:5-14 | a field's issues are empty exactly when it is accepted: an absent key is accepted only when optional, and a present value must be a string passing the checks. "Required" is reported exactly for an absent required key, "not a string" exactly for a present non-string, and each length or email issue exactly when its check fails on a present string |
| ObjectSchema.Issues | src/types.ts:4-15 | the schema's issue list is empty exactly when every field accepts the payload, and every issue names one of the schema's keys |
| ObjectSchema.PayloadIssues | src/types.ts:4 | a whole payload has no issues exactly when it is an object the schema accepts; a non-object gets exactly one root "not an object" issue; for an object, an issue is reported exactly when some field of the schema reports it |
| ObjectSchema.FieldIssuesIncluded | src/types.ts:4-15 | every issue of any one field appears in the schema's issue list |
| ObjectSchema.IssuesByField | src/types.ts:4-15 | an issue is in the schema's list exactly when some field of the schema reports it |
| ObjectSchema.IssueAtUniqueKey | src/types.ts:4-15 | when only one field carries a key, every issue at that key comes from that field |
| ObjectSchema.Omit | src/types.ts:17-18 | `omit` keeps exactly the fields whose key is not dropped |
| ObjectSchema.Pick | src/types.ts:19-22 | `pick` keeps exactly the fields whose key is picked |
| ObjectSchema.Partial | src/types.ts:23 | `partial` keeps every field's key and checks and makes it optional |
| ObjectSchema.OmitWeakens | src/types.ts:17-18 | whatever a schema accepts, its omission accepts |
| ObjectSchema.PickWeakens | src/types.ts:19-22 | whatever a schema accepts, its pick accepts |
| ObjectSchema.PickOmitSplit | src/types.ts:17-22 | a schema accepts exactly when both its pick and its omission of the same keys accept |
| ObjectSchema.PartialAccepts | src/types.ts:23 | the partial schema accepts exactly the payloads whose present fields are strings passing their checks |
| ObjectSchema.PartialWeakens | src/types.ts:23 | whatever a schema accepts, its partial form accepts; the partial form accepts the empty payload |
| ObjectSchema.UnknownKeysIgnored | src/types.ts:4-15 | two payloads that agree on the schema's keys are accepted or rejected alike, so extra keys never cause a rejection |
| ObjectSchema.OmitIssues | src/types.ts:17-18 | omitting keys drops exactly the issues reported at those keys |
| ObjectSchema.PickIssues | src/types.ts:19-22 | picking keys keeps exactly the issues reported at those keys |
| ObjectSchema.PartialFieldIssues | src/types.ts:23 | an optional copy of a field reports the field's issues except "required" |
| ObjectSchema.PartialIssues | src/types.ts:23 | the partial schema reports exactly the original issues other than "required" |
| UserSchemas.DerivedSchemas | src/types.ts:17-23 | the no-sensitive view is `_id, username, email, role`; new-user is `username, email, password`; login is `username, password`; update is new-user with every field optional |
| UserSchemas.FieldMeanings | src/types.ts:5-14 | `_id` and `role` are optional strings; username is a string of at least 3 characters; email is a string the email check accepts; password is a string of 6 to 50 characters |
| UserSchemas.UserInfoMeaning | src/types.ts:4-15 | the full schema accepts exactly when `_id` is absent or a string, the username has at least 3 characters, the email passes the email check, the password has 6 to 50 characters, and `role` is absent or a string |
| UserSchemas.NoSensitiveMeaning | src/types.ts:17 | the no-sensitive view accepts exactly the full rules for `_id`, username, email and role, with nothing asked of the password |
| UserSchemas.NewUserMeaning | src/types.ts:18 | the new-user view accepts exactly when username, email and password meet the full rules; `_id` and `role` are not looked at |
| UserSchemas.LoginMeaning | src/types.ts:19-22 | the login view accepts exactly when username and password meet the full rules, whatever the email check is |
| UserSchemas.UpdateMeaning | src/types.ts:23 | the update view accepts exactly when each of username, email and password is absent or meets its full rule |
| UserSchemas.LoginPayloadMeaning | src/types.ts:19-22 | the login view accepts a whole request body exactly when it is an object meeting the login rules; arrays, `null` and scalars are rejected |
| UserSchemas.NewUserPayloadMeaning | src/types.ts:18 | the new-user view accepts a whole payload exactly when it is an object meeting the new-user rules |
| UserSchemas.UpdatePayloadMeaning | src/types.ts:23 | the update view accepts a whole payload exactly when it is an object meeting the update rules; even an empty patch must be an object |
| UserSchemas.FullRecordPassesViews | src/types.ts:17-23 | a payload the full schema accepts is accepted by all four derived views |
| UserSchemas.NewUserPassesUpdateAndLogin | src/types.ts:18-23 | a valid registration payload is a valid update and a valid login |
| UserSchemas.EmptyUpdateValid | src/types.ts:23 | the empty update payload is valid |
| UserSchemas.FullIsNoSensitivePlusPassword | src/types.ts:10-17 | the full schema accepts exactly when the no-sensitive view accepts and the password has 6 to 50 characters |
| UserSchemas.NoSensitiveIssues | src/types.ts:17 | the no-sensitive view reports the full schema's issues except those about the password |
| UserSchemas.NewUserIssues | src/types.ts:18 | the new-user view reports the full schema's issues except those about `_id` and `role` |
| UserSchemas.LoginIssues | src/types.ts:19-22 | the login view reports exactly the full schema's issues about username and password |
| UserSchemas.UpdateIssues | src/types.ts:23 | the update view reports the new-user view's issues except "required" |
| UserSchemas.FullIssuesAt | src/types.ts:4-15 | in the full schema, the issues at one field's key are exactly that field's issues |
| UserSchemas.UsernameViews | src/types.ts:6-8 | a username issue other than "required" is reported by the full schema and all four views exactly when the username field reports it |
| UserSchemas.PasswordViews | src/types.ts:10-13 | a password issue other than "required" is reported by the full, new-user, login and update schemas exactly when the password field reports it |
| UserSchemas.UsernameTooShortReported | src/types.ts:6-8 | "Username must be at least 3 characters" is reported by the full schema and all four views exactly when the username is a string under 3 characters; it is the message the source gives for that check |
| UserSchemas.PasswordTooShortReported | src/types.ts:10-12 | "Password must be at least 6 characters" is reported by the full, new-user, login and update schemas exactly when the password is a string under 6 characters; it is the message the source gives for that check |
| UserSchemas.PasswordTooLongReported | src/types.ts:10-13 | "Password must not contain more than 50 characters" is reported by the same schemas exactly when the password is a string over 50 characters; it is the message the source gives for that check |
| Tierlist.NestedBranch | src/types.ts:42 | the `nested` union takes the character branch exactly when every entry is a character. It takes the weapon branch exactly when not all are characters but all are weapons. Otherwise it rejects |
| Tierlist.FirstInvalidTier | src/types.ts:45-47 | finds no tier exactly when every tier is valid; otherwise the position of the first invalid tier |
| Tierlist.ValidateTierlist | src/types.ts:45-47 | accepts exactly when the payload is an object whose `tiers` is an array of valid tiers |
| Tierlist.EmptyTierlistValid | src/types.ts:45-47 | a tierlist with no tiers is valid |
| Tierlist.TierlistConcat | src/types.ts:45-47 | joining two tier lists gives a valid tierlist exactly when both lists are valid |
| Tierlist.TierlistDropTier | src/types.ts:45-47 | removing a tier from a valid tierlist leaves a valid tierlist |
| Tierlist.MixedNestedRejected | src/types.ts:38-44 | a `nested` array mixing a pure character with a pure weapon is rejected, and so is every tier carrying it and every tierlist containing such a tier |
| Tierlist.EmptyNestedAccepted | src/types.ts:42 | an empty `nested` array is accepted by both alternatives of the union |
| Tierlist.CharacterNeedsWeapons | src/types.ts:31-37 | a character whose own `nested` list holds a non-weapon is rejected |
| Users.InitialUsers | src/services/users.ts:3-16 | definition: the two seeded records, ids 1 and 2, with their names, descriptions and passwords |
| Users.WithoutPassword | src/services/users.ts:23-24 | definition: a record's id, name and description, without the password |
| Users.Overlay | src/services/users.ts:49-55 | definition: the spread of a patch over a record; a field present in the patch replaces the record's, the id is kept |
| ObjectSchema.StringAccepts | src/types.ts:6-13 | definition: a string meets a rule when it is at least the minimum and at most the maximum length, and passes the email check when the rule has one, as the `.min().max().email()` chain |
| Json.OptionalString | src/types.ts:5 | definition: a key is absent or holds a string, as `z.string().optional()` |
| Tierlist.IsCharacterType | src/types.ts:35 | definition: the string "character" or the string "weapon", as `z.enum` |
| UserSchemas.StringShorter | src/types.ts:6-12 | definition: the payload holds a string at the key with fewer characters than the bound |
| UserSchemas.StringLonger | src/types.ts:13 | definition: the payload holds a string at the key with more characters than the bound |
| ObjectSchema.FieldAccepts | src/types.ts:5-14 | definition: an absent key passes only when the field is optional; a present value must be a string meeting the field's rule |
| ObjectSchema.Accepts | src/types.ts:4-15 | definition: an object passes when every field of the schema passes; keys outside the schema are ignored |
| ObjectSchema.AcceptsPayload | src/types.ts:4 | definition: a payload passes an object schema only when it is an object whose fields pass |
| UserSchemas.UserInfoSchema | src/types.ts:4-15 | definition: optional `_id`, username of at least 3, email, password of 6 to 50, optional `role`, with the source's messages |
| UserSchemas.UserInfoNoSensitiveSchema | src/types.ts:17 | definition: the full schema with `password` omitted |
| UserSchemas.NewUserSchema | src/types.ts:18 | definition: the full schema with `_id` and `role` omitted |
| UserSchemas.LoginUserSchema | src/types.ts:19-22 | definition: the full schema restricted to username and password |
| UserSchemas.UpdateUserSchema | src/types.ts:23 | definition: the new-user schema with every field optional |
| Tierlist.IsWeapon | src/types.ts:25-30 | definition: an object whose `id`, `name`, `type` and `weaponType` are strings |
| Tierlist.IsCharacter | src/types.ts:31-37 | definition: an object with string `id`, `name` and `weapon`, a `type` of "character" or "weapon", and a `nested` array of weapons |
| Tierlist.IsNested | src/types.ts:42 | definition: an array of characters or an array of weapons |
| Tierlist.IsTier | src/types.ts:38-44 | definition: an object with a numeric `id`, a string `name`, an optional string `color`, an optional `nested` union and an optional boolean `modal` |
| Tierlist.IsTierlist | src/types.ts:45-47 | definition: an object whose `tiers` is an array of tiers |

Rows whose third column starts with "definition:" name the definitions the contracts are stated in. They carry no contract of their own; each is the Dafny form of the cited declaration.

## Left out

- GetUsers: it hands out the stored list itself, so there is nothing to state beyond identity. It is defined but carries no contract.
- Module-level mutable state: the store is passed in and returned explicitly, so aliasing is not modelled. `getUsers` hands out the stored array, and `addUser` and `searchUserById` hand out the stored record objects, so a caller that mutates them changes the store. `deleteUser` splices the array in place while `updateUser` rebinds it to a new array, so an earlier `getUsers()` reference sees later deletions but not later updates.
- Users.UpdateUser: a patch field holding an explicit `undefined` is treated as absent. The source's spread would copy `undefined` over the field. The patch is given the fields `users.ts` itself reads and writes (`name`, `description`, `password`). The declared `Partial<NewUser>` of `src/types.ts` has other keys (`username`, `email`); those, and an `id` in the patch, are not modelled.
- Ids are JavaScript numbers. They are modelled as unbounded integers, so floating-point ids and precision limits are not covered.
- The email grammar of the validation library's `.email()` is the parameter `isEmail`. Its default message, and the library's wording for missing and non-string fields, are not modelled (`ObjectSchema.CustomMessage` gives only the messages the source spells out).
- The order in which the validation library reports issues, and so which message comes first, is not modelled. `Issues` lists issues in field order as a modelling choice, and the lemmas only speak of membership.
- Parsing output is not modelled: the library strips unknown keys and the chosen union branch shapes the parsed `nested` array. Only acceptance and issues are.
- String lengths are counted in Unicode scalar values. The library counts UTF-16 code units, so the two differ for characters outside the Basic Multilingual Plane.
- JSON numbers are integers in `Json.JNum`, so non-integral tier ids are not represented.
- The database service, password hashing, token signing and verification, the HTTP routes, cookies, CORS, the access-key middleware, the Mongoose models, the duck-typed status-message check and the type-augmentation files are not part of this model. They are I/O, foreign cryptographic calls or declarations.

## Findings

| source | as written | input that shows it | evidently intended | confidence | as-written member | corrected member |
|---|---|---|---|---|---|---|
| src/services/users.ts:40 | the new id is `users.length + 1` | on the seeded store, `deleteUser(1)` then `addUser(...)`: the new record gets id 2, which the remaining record already has, and `searchUserById(2)` returns the old record | a new record's id differs from every stored id | medium; not executed | UserIds.AddUserReusesId | UserIds.AddUserFresh |

`UserIds.AddUserFresh` derives the id as one more than the largest stored id. `UserIds.AddUserFreshKeepsUnique` proves that it keeps ids unique. `UserIds.AddUserFreshAgrees` proves that it equals the original on every store that was never deleted from. The original derivation is kept in `Users.AddUser`, because that is the source's behaviour. Its properties in `UsersProperties` are stated under the condition that the derived id is new.

A related consequence concerns `Users.UpdateUser`, which follows the code. The source overlays the patch onto the *first* match and then writes that overlay over every record carrying the id. With duplicate ids, a later record is therefore replaced by the first one's fields, not patched. `UserIds.UpdateOverwritesDuplicate` exhibits it: with two records of id 1, an empty patch turns the second into a copy of the first. `UsersProperties.UpdateOverlaysOwnFields` and `UsersProperties.UpdateEmptyPatch` hold only when ids are unique.

=== FILE: json.dfy ===
/**
 * The untyped payload a schema is asked to validate: a JSON value as
 * `JSON.parse` produces it. Numbers are integers here.
 */
module Json {

  datatype Json =
    | JNull
    | JBool(b: bool)
    | JNum(n: int)
    | JStr(s: string)
    | JArr(items: seq<Json>)
    | JObj(fields: map<string, Json>)

  /** The key is present and holds a string. */
  predicate HasString(obj: map<string, Json>, key: string) {
    key in obj && obj[key].JStr?
  }

  /** The key is absent (`undefined`) or holds a string: `z.string().optional()`. */
  predicate OptionalString(obj: map<string, Json>, key: string) {
    key !in obj || obj[key].JStr?
  }
}

=== FILE: schema.dfy ===
/**
 * Object schemas whose fields are strings, with the combinators the user
 * schemas are built from: `omit`, `pick` and `partial`.
 *
 * A field is a key, the checks its string value must pass (`min`, `max`,
 * `email`, in the order they are chained) and whether it is optional. A
 * payload is accepted when every field accepts it; keys the schema does not
 * name are ignored. `Issues` lists what is wrong, one entry per failed check,
 * in field order.
 */
module ObjectSchema {
  import opened Wrappers
  import opened Json

  /** The email grammar is the validation library's own; it is a parameter here. */
  type EmailCheck = string -> bool

  /** A length limit and the message reported when it is violated. */
  datatype Bound = Bound(limit: nat, message: string)

  datatype StringRule = StringRule(min: Option<Bound>, max: Option<Bound>, email: bool)

  datatype Field = Field(key: string, rule: StringRule, optional: bool)

  type Schema = seq<Field>

  datatype IssueKind =
    | Required            // a required key is absent
    | NotString           // the value is not a string
    | TooShort(bound: Bound)
    | TooLong(bound: Bound)
    | InvalidEmail
    | NotObject           // the payload itself is not an object

  datatype Issue = Issue(path: string, kind: IssueKind)

  /** The message an issue carries when the schema spells one out; the others use the library's wording. */
  function CustomMessage(kind: IssueKind): Option<string> {
    match kind
    case TooShort(b) => Some(b.message)
    case TooLong(b) => Some(b.message)
    case _ => None
  }

  function Keys(schema: Schema): set<string> {
    set f | f in schema :: f.key
  }

  // ---------------------------------------------------------------------------
  // Acceptance

  predicate StringAccepts(isEmail: EmailCheck, rule: StringRule, s: string) {
    && (rule.min.Some? ==> |s| >= rule.min.value.limit)
    && (rule.max.Some? ==> |s| <= rule.max.value.limit)
    && (rule.email ==> isEmail(s))
  }

  predicate FieldAccepts(isEmail: EmailCheck, f: Field, obj: map<string, Json>) {
    if f.key in obj then obj[f.key].JStr? && StringAccepts(isEmail, f.rule, obj[f.key].s)
    else f.optional
  }

  predicate Accepts(isEmail: EmailCheck, schema: Schema, obj: map<string, Json>) {
    forall i :: 0 <= i < |schema| ==> FieldAccepts(isEmail, schema[i], obj)
  }

  /** `z.object(...)` applied to any JSON value: it must be an object whose fields the schema accepts. */
  predicate AcceptsPayload(isEmail: EmailCheck, schema: Schema, v: Json) {
    v.JObj? && Accepts(isEmail, schema, v.fields)
  }

  // ---------------------------------------------------------------------------
  // Issues

  function StringIssues(isEmail: EmailCheck, key: string, rule: StringRule, s: string): (r: seq<Issue>)
    ensures r == [] <==> StringAccepts(isEmail, rule, s)
    ensures forall k :: 0 <= k < |r| ==> r[k].path == key
    ensures forall b :: Issue(key, TooShort(b)) in r <==> rule.min == Some(b) && |s| < b.limit
    ensures forall b :: Issue(key, TooLong(b)) in r <==> rule.max == Some(b) && |s| > b.limit
    ensures Issue(key, InvalidEmail) in r <==> rule.email && !isEmail(s)
    ensures forall iss :: iss in r ==> iss.kind.TooShort? || iss.kind.TooLong? || iss.kind.InvalidEmail?
  {
    (if rule.min.Some? && |s| < rule.min.value.limit then [Issue(key, TooShort(rule.min.value))] else [])
    + (if rule.max.Some? && |s| > rule.max.value.limit then [Issue(key, TooLong(rule.max.value))] else [])
    + (if rule.email && !isEmail(s) then [Issue(key, InvalidEmail)] else [])
  }

  function FieldIssues(isEmail: EmailCheck, f: Field, obj: map<string, Json>): (r: seq<Issue>)
    ensures r == [] <==> FieldAccepts(isEmail, f, obj)
    ensures forall k :: 0 <= k < |r| ==> r[k].path == f.key
    ensures Issue(f.key, Required) in r <==> f.key !in obj && !f.optional
    ensures Issue(f.key, NotString) in r <==> f.key in obj && !obj[f.key].JStr?
    ensures forall b :: Issue(f.key, TooShort(b)) in r <==>
                        f.key in obj && obj[f.key].JStr? && f.rule.min == Some(b) && |obj[f.key].s| < b.limit
    ensures forall b :: Issue(f.key, TooLong(b)) in r <==>
                        f.key in obj && obj[f.key].JStr? && f.rule.max == Some(b) && |obj[f.key].s| > b.limit
    ensures Issue(f.key, InvalidEmail) in r <==>
            f.key in obj && obj[f.key].JStr? && f.rule.email && !isEmail(obj[f.key].s)
    ensures forall iss :: iss in r ==> !iss.kind.NotObject?
  {
    if f.key !in obj then (if f.optional then [] else [Issue(f.key, Required)])
    else if !obj[f.key].JStr? then [Issue(f.key, NotString)]
    else StringIssues(isEmail, f.key, f.rule, obj[f.key].s)
  }

  /** Every failed check of every field, fields in schema order. */
  function Issues(isEmail: EmailCheck, schema: Schema, obj: map<string, Json>): (r: seq<Issue>)
    ensures r == [] <==> Accepts(isEmail, schema, obj)
    ensures forall k :: 0 <= k < |r| ==> r[k].path in Keys(schema)
  {
    if |schema| == 0 then []
    else
      var head := FieldIssues(isEmail, schema[0], obj);
      var tail := Issues(isEmail, schema[1..], obj);
      assert forall i :: 1 <= i < |schema| ==> schema[i] == schema[1..][i - 1];
      assert forall k :: 0 <= k < |tail| ==> tail[k].path in Keys(schema) by {
        forall k | 0 <= k < |tail| ensures tail[k].path in Keys(schema) {
          var f :| f in schema[1..] && f.key == tail[k].path;
        }
      }
      head + tail
  }

  /** The issues of a whole payload: a non-object is reported once, at the root, and nothing else is checked. */
  function PayloadIssues(isEmail: EmailCheck, schema: Schema, v: Json): (r: seq<Issue>)
    ensures r == [] <==> AcceptsPayload(isEmail, schema, v)
    ensures !v.JObj? ==> r == [Issue("", NotObject)]
    ensures forall k :: 0 <= k < |r| ==> r[k].path in Keys(schema) || r[k] == Issue("", NotObject)
    ensures v.JObj? ==> forall iss :: iss in r <==>
                          exists i :: 0 <= i < |schema| && iss in FieldIssues(isEmail, schema[i], v.fields)
  {
    if v.JObj? then
      IssuesByField(isEmail, schema, v.fields);
      Issues(isEmail, schema, v.fields)
    else
      [Issue("", NotObject)]
  }

  /** An issue is in the schema's list exactly when some field of the schema reports it. */
  lemma {:induction false} IssuesByField(isEmail: EmailCheck, schema: Schema, obj: map<string, Json>)
    ensures forall iss :: iss in Issues(isEmail, schema, obj) <==>
                          exists i :: 0 <= i < |schema| && iss in FieldIssues(isEmail, schema[i], obj)
  {
    if |schema| > 0 {
      IssuesByField(isEmail, schema[1..], obj);
      assert Issues(isEmail, schema, obj) == FieldIssues(isEmail, schema[0], obj) + Issues(isEmail, schema[1..], obj);
      forall iss | iss in Issues(isEmail, schema, obj)
        ensures exists i :: 0 <= i < |schema| && iss in FieldIssues(isEmail, schema[i], obj)
      {
        if iss !in FieldIssues(isEmail, schema[0], obj) {
          var i :| 0 <= i < |schema[1..]| && iss in FieldIssues(isEmail, schema[1..][i], obj);
          assert schema[1..][i] == schema[i + 1];
        }
      }
      forall iss, i | 0 <= i < |schema| && iss in FieldIssues(isEmail, schema[i], obj)
        ensures iss in Issues(isEmail, schema, obj)
      {
        if i > 0 {
          assert schema[1..][i - 1] == schema[i];
        }
      }
    }
  }

  /** Where only one field carries a key, every issue at that key comes from that field. */
  lemma IssueAtUniqueKey(isEmail: EmailCheck, schema: Schema, obj: map<string, Json>, i: nat)
    requires i < |schema|
    requires forall j :: 0 <= j < |schema| && j != i ==> schema[j].key != schema[i].key
    ensures forall iss :: iss in Issues(isEmail, schema, obj) && iss.path == schema[i].key ==>
                          iss in FieldIssues(isEmail, schema[i], obj)
  {
    IssuesByField(isEmail, schema, obj);
  }

  /** The issues of any one field appear among the schema's issues. */
  lemma {:induction false} FieldIssuesIncluded(isEmail: EmailCheck, schema: Schema, obj: map<string, Json>, i: nat)
    requires i < |schema|
    ensures forall iss :: iss in FieldIssues(isEmail, schema[i], obj) ==> iss in Issues(isEmail, schema, obj)
  {
    if i > 0 {
      FieldIssuesIncluded(isEmail, schema[1..], obj, i - 1);
    }
  }

  // ---------------------------------------------------------------------------
  // Combinators

  /** `schema.omit(keys)`: drops the fields with those keys, keeping the order of the rest. */
  function Omit(schema: Schema, keys: set<string>): (r: Schema)
    ensures forall f :: f in r <==> f in schema && f.key !in keys
  {
    if |schema| == 0 then []
    else
      var rest := Omit(schema[1..], keys);
      assert forall f :: f in schema <==> f == schema[0] || f in schema[1..];
      if schema[0].key in keys then rest else [schema[0]] + rest
  }

  /** `schema.pick(keys)`: keeps only the fields with those keys, in schema order. */
  function Pick(schema: Schema, keys: set<string>): (r: Schema)
    ensures forall f :: f in r <==> f in schema && f.key in keys
  {
    if |schema| == 0 then []
    else
      var rest := Pick(schema[1..], keys);
      assert forall f :: f in schema <==> f == schema[0] || f in schema[1..];
      if schema[0].key in keys then [schema[0]] + rest else rest
  }

  /** `schema.partial()`: every field becomes optional, its checks unchanged. */
  function Partial(schema: Schema): (r: Schema)
    ensures |r| == |schema|
    ensures forall i :: 0 <= i < |r| ==> r[i].optional && r[i].key == schema[i].key && r[i].rule == schema[i].rule
  {
    seq(|schema|, i requires 0 <= i < |schema| => schema[i].(optional := true))
  }

  // ---------------------------------------------------------------------------
  // How the combinators relate

  /** Acceptance depends on which fields the schema has, not on their order. */
  lemma AcceptsByMembership(isEmail: EmailCheck, schema: Schema, obj: map<string, Json>)
    ensures Accepts(isEmail, schema, obj) <==> forall f :: f in schema ==> FieldAccepts(isEmail, f, obj)
  {
  }

  /** A payload the full schema accepts is accepted by any of its omissions. */
  lemma OmitWeakens(isEmail: EmailCheck, schema: Schema, keys: set<string>, obj: map<string, Json>)
    requires Accepts(isEmail, schema, obj)
    ensures Accepts(isEmail, Omit(schema, keys), obj)
  {
    AcceptsByMembership(isEmail, Omit(schema, keys), obj);
  }

  /** A payload the full schema accepts is accepted by any of its picks. */
  lemma PickWeakens(isEmail: EmailCheck, schema: Schema, keys: set<string>, obj: map<string, Json>)
    requires Accepts(isEmail, schema, obj)
    ensures Accepts(isEmail, Pick(schema, keys), obj)
  {
    AcceptsByMembership(isEmail, Pick(schema, keys), obj);
  }

  /** Splitting the fields by a key set: the schema accepts exactly when both halves do. */
  lemma PickOmitSplit(isEmail: EmailCheck, schema: Schema, keys: set<string>, obj: map<string, Json>)
    ensures Accepts(isEmail, schema, obj) <==>
            Accepts(isEmail, Pick(schema, keys), obj) && Accepts(isEmail, Omit(schema, keys), obj)
  {
    AcceptsByMembership(isEmail, schema, obj);
    AcceptsByMembership(isEmail, Pick(schema, keys), obj);
    AcceptsByMembership(isEmail, Omit(schema, keys), obj);
  }

  /** The partial schema accepts exactly the payloads whose present fields pass their checks. */
  lemma PartialAccepts(isEmail: EmailCheck, schema: Schema, obj: map<string, Json>)
    ensures Accepts(isEmail, Partial(schema), obj) <==>
            forall i :: 0 <= i < |schema| && schema[i].key in obj ==>
              obj[schema[i].key].JStr? && StringAccepts(isEmail, schema[i].rule, obj[schema[i].key].s)
  {
    var p := Partial(schema);
    assert forall i :: 0 <= i < |schema| ==>
      (FieldAccepts(isEmail, p[i], obj) <==>
        (schema[i].key in obj ==> obj[schema[i].key].JStr? && StringAccepts(isEmail, schema[i].rule, obj[schema[i].key].s)));
  }

  /** Whatever a schema accepts, its partial form accepts too; and it accepts the empty payload. */
  lemma PartialWeakens(isEmail: EmailCheck, schema: Schema, obj: map<string, Json>)
    ensures Accepts(isEmail, schema, obj) ==> Accepts(isEmail, Partial(schema), obj)
    ensures Accepts(isEmail, Partial(schema), map[])
  {
    PartialAccepts(isEmail, schema, obj);
    PartialAccepts(isEmail, schema, map[]);
  }

  /** Keys the schema does not name play no part: payloads agreeing on the schema's keys are judged alike. */
  lemma UnknownKeysIgnored(isEmail: EmailCheck, schema: Schema, obj: map<string, Json>, other: map<string, Json>)
    requires forall k :: k in Keys(schema) ==> (k in obj <==> k in other)
    requires forall k :: k in Keys(schema) && k in obj ==> obj[k] == other[k]
    ensures Accepts(isEmail, schema, obj) <==> Accepts(isEmail, schema, other)
  {
    assert forall i :: 0 <= i < |schema| ==> schema[i].key in Keys(schema);
    assert forall i :: 0 <= i < |schema| ==>
      (FieldAccepts(isEmail, schema[i], obj) <==> FieldAccepts(isEmail, schema[i], other));
  }

  /** Omitting keys drops exactly the issues reported at those keys. */
  lemma {:induction false} OmitIssues(isEmail: EmailCheck, schema: Schema, keys: set<string>, obj: map<string, Json>)
    ensures forall iss :: iss in Issues(isEmail, Omit(schema, keys), obj) <==>
                          iss in Issues(isEmail, schema, obj) && iss.path !in keys
  {
    if |schema| > 0 {
      OmitIssues(isEmail, schema[1..], keys, obj);
    }
  }

  /** Picking keys keeps exactly the issues reported at those keys. */
  lemma {:induction false} PickIssues(isEmail: EmailCheck, schema: Schema, keys: set<string>, obj: map<string, Json>)
    ensures forall iss :: iss in Issues(isEmail, Pick(schema, keys), obj) <==>
                          iss in Issues(isEmail, schema, obj) && iss.path in keys
  {
    if |schema| > 0 {
      PickIssues(isEmail, schema[1..], keys, obj);
    }
  }

  lemma PartialFieldIssues(isEmail: EmailCheck, f: Field, obj: map<string, Json>)
    ensures forall iss :: iss in FieldIssues(isEmail, f.(optional := true), obj) <==>
                          iss in FieldIssues(isEmail, f, obj) && iss.kind != Required
  {
    if f.key in obj && obj[f.key].JStr? {
      var r := StringIssues(isEmail, f.key, f.rule, obj[f.key].s);
      assert forall k :: 0 <= k < |r| ==> r[k].kind != Required;
    }
  }

  /** Making every field optional drops exactly the "required" issues. */
  lemma {:induction false} PartialIssues(isEmail: EmailCheck, schema: Schema, obj: map<string, Json>)
    ensures forall iss :: iss in Issues(isEmail, Partial(schema), obj) <==>
                          iss in Issues(isEmail, schema, obj) && iss.kind != Required
  {
    if |schema| > 0 {
      var p := Partial(schema);
      PartialIssues(isEmail, schema[1..], obj);
      PartialFieldIssues(isEmail, schema[0], obj);
      assert p[0] == schema[0].(optional := true);
      assert p[1..] == Partial(schema[1..]);
      assert Issues(isEmail, p, obj) == FieldIssues(isEmail, p[0], obj) + Issues(isEmail, p[1..], obj);
    }
  }
}

=== FILE: seqs.dfy ===
/** Linear search over sequences, as JavaScript's `Array.prototype.find` and `findIndex`. */
module Seqs {
  import opened Wrappers

  /** True when no element of `xs` satisfies `p`. */
  predicate NoneMatch<T>(xs: seq<T>, p: T -> bool) {
    forall j :: 0 <= j < |xs| ==> !p(xs[j])
  }

  /** Index of the first element satisfying `p`; `None` plays the part of `findIndex`'s -1. */
  function FindIndex<T>(xs: seq<T>, p: T -> bool): (r: Option<nat>)
    ensures r.None? <==> NoneMatch(xs, p)
    ensures r.Some? ==> r.value < |xs| && p(xs[r.value])
    ensures r.Some? ==> NoneMatch(xs[..r.value], p)
  {
    if |xs| == 0 then None
    else if p(xs[0]) then Some(0)
    else
      match FindIndex(xs[1..], p)
      case None => None
      case Some(i) =>
        assert xs[..i + 1] == [xs[0]] + xs[1..][..i];
        Some(i + 1)
  }

  /** The first element satisfying `p`, as `find` returns it. */
  function Find<T>(xs: seq<T>, p: T -> bool): (r: Option<T>)
    ensures r.None? <==> NoneMatch(xs, p)
    ensures r.Some? ==> exists i :: 0 <= i < |xs| && xs[i] == r.value && p(xs[i]) && NoneMatch(xs[..i], p)
  {
    match FindIndex(xs, p)
    case None => None
    case Some(i) => Some(xs[i])
  }

  /** `xs` with the element at position `i` cut out, as `splice(i, 1)` leaves the array. */
  function RemoveAt<T>(xs: seq<T>, i: nat): (r: seq<T>)
    requires i < |xs|
    ensures |r| == |xs| - 1
    ensures forall j :: 0 <= j < i ==> r[j] == xs[j]
    ensures forall j :: i <= j < |r| ==> r[j] == xs[j + 1]
    ensures multiset(r) + multiset{xs[i]} == multiset(xs)
  {
    assert xs == xs[..i] + [xs[i]] + xs[i + 1..];
    xs[..i] + xs[i + 1..]
  }

  /** Putting the removed element back where it was restores the sequence. */
  lemma RemoveAtInverse<T>(xs: seq<T>, i: nat)
    requires i < |xs|
    ensures RemoveAt(xs, i)[..i] + [xs[i]] + RemoveAt(xs, i)[i..] == xs
  {
    var r := RemoveAt(xs, i);
    var s := r[..i] + [xs[i]] + r[i..];
    assert |s| == |xs|;
    forall j | 0 <= j < |xs|
      ensures s[j] == xs[j]
    {
      if j < i {
      } else if j == i {
      } else {
        assert s[j] == r[j - 1];
      }
    }
  }
}

=== FILE: tierlist.dfy ===
/**
 * The tierlist schemas of `src/types.ts` as predicates over JSON values,
 * with a validator that finds the first offending tier.
 *
 * A tierlist is `{tiers: Tier[]}`. A tier has a numeric id, a string name,
 * optionally a string colour and a boolean `modal`, and optionally a
 * `nested` array that is all characters or all weapons. A character carries
 * its own `nested` array of weapons.
 */
module Tierlist {
  import opened Wrappers
  import opened Json

  /** `weaponSchema`: four string fields. */
  predicate IsWeapon(v: Json) {
    && v.JObj?
    && HasString(v.fields, "id")
    && HasString(v.fields, "name")
    && HasString(v.fields, "type")
    && HasString(v.fields, "weaponType")
  }

  predicate AllWeapons(xs: seq<Json>) {
    forall i :: 0 <= i < |xs| ==> IsWeapon(xs[i])
  }

  /** `z.enum(['character', 'weapon'])`. */
  predicate IsCharacterType(v: Json) {
    v == JStr("character") || v == JStr("weapon")
  }

  /** `characterSchema`: string id, name and weapon, an enum type, and a nested array of weapons. */
  predicate IsCharacter(v: Json) {
    && v.JObj?
    && HasString(v.fields, "id")
    && HasString(v.fields, "name")
    && HasString(v.fields, "weapon")
    && "type" in v.fields && IsCharacterType(v.fields["type"])
    && "nested" in v.fields && v.fields["nested"].JArr? && AllWeapons(v.fields["nested"].items)
  }

  predicate AllCharacters(xs: seq<Json>) {
    forall i :: 0 <= i < |xs| ==> IsCharacter(xs[i])
  }

  /** `z.array(characterSchema).or(z.array(weaponSchema))`. */
  predicate IsNested(v: Json) {
    v.JArr? && (AllCharacters(v.items) || AllWeapons(v.items))
  }

  /** `tierSchema`. */
  predicate IsTier(v: Json) {
    && v.JObj?
    && "id" in v.fields && v.fields["id"].JNum?
    && HasString(v.fields, "name")
    && OptionalString(v.fields, "color")
    && ("nested" !in v.fields || IsNested(v.fields["nested"]))
    && ("modal" !in v.fields || v.fields["modal"].JBool?)
  }

  predicate AllTiers(xs: seq<Json>) {
    forall i :: 0 <= i < |xs| ==> IsTier(xs[i])
  }

  /** `tierlistSchema`. */
  predicate IsTierlist(v: Json) {
    v.JObj? && "tiers" in v.fields && v.fields["tiers"].JArr? && AllTiers(v.fields["tiers"].items)
  }

  /** The payload `{tiers: tiers}`. */
  function TierlistOf(tiers: seq<Json>): Json {
    JObj(map["tiers" := JArr(tiers)])
  }

  // ---------------------------------------------------------------------------
  // Validation

  /** Which alternative of the `nested` union accepts an array; the character one is tried first. */
  datatype NestedKind = Characters | Weapons

  /** The alternative the union takes, or `None` when neither accepts. */
  method NestedBranch(xs: seq<Json>) returns (r: Option<NestedKind>)
    ensures r == Some(Characters) <==> AllCharacters(xs)
    ensures r == Some(Weapons) <==> !AllCharacters(xs) && AllWeapons(xs)
    ensures r.None? <==> !AllCharacters(xs) && !AllWeapons(xs)
  {
    var chars, weapons := true, true;
    var i := 0;
    while i < |xs|
      invariant 0 <= i <= |xs|
      invariant chars <==> AllCharacters(xs[..i])
      invariant weapons <==> AllWeapons(xs[..i])
    {
      assert xs[..i + 1] == xs[..i] + [xs[i]];
      chars := chars && IsCharacter(xs[i]);
      weapons := weapons && IsWeapon(xs[i]);
      i := i + 1;
    }
    assert xs[..i] == xs;
    if chars {
      r := Some(Characters);
    } else if weapons {
      r := Some(Weapons);
    } else {
      r := None;
    }
  }

  /** Position of the first tier the schema rejects, if any. */
  method FirstInvalidTier(tiers: seq<Json>) returns (r: Option<nat>)
    ensures r.None? <==> AllTiers(tiers)
    ensures r.Some? ==> r.value < |tiers| && !IsTier(tiers[r.value])
    ensures r.Some? ==> forall j :: 0 <= j < r.value ==> IsTier(tiers[j])
  {
    var i := 0;
    while i < |tiers|
      invariant 0 <= i <= |tiers|
      invariant forall j :: 0 <= j < i ==> IsTier(tiers[j])
    {
      if !IsTier(tiers[i]) {
        return Some(i);
      }
      i := i + 1;
    }
    return None;
  }

  /** `tierlistSchema.safeParse(payload).success`. */
  method ValidateTierlist(v: Json) returns (ok: bool)
    ensures ok <==> IsTierlist(v)
  {
    if !(v.JObj? && "tiers" in v.fields && v.fields["tiers"].JArr?) {
      return false;
    }
    var bad := FirstInvalidTier(v.fields["tiers"].items);
    ok := bad.None?;
  }

  // ---------------------------------------------------------------------------
  // Properties

  /** A tierlist with no tiers is valid. */
  lemma EmptyTierlistValid()
    ensures IsTierlist(TierlistOf([]))
  {
  }

  /** Joining two lists of tiers gives a valid tierlist exactly when both lists do. */
  lemma TierlistConcat(a: seq<Json>, b: seq<Json>)
    ensures IsTierlist(TierlistOf(a + b)) <==> IsTierlist(TierlistOf(a)) && IsTierlist(TierlistOf(b))
  {
    assert forall i :: 0 <= i < |a| ==> (a + b)[i] == a[i];
    assert forall i :: 0 <= i < |b| ==> (a + b)[|a| + i] == b[i];
  }

  /** Dropping a tier from a valid tierlist leaves a valid tierlist. */
  lemma TierlistDropTier(tiers: seq<Json>, k: nat)
    requires k < |tiers| && IsTierlist(TierlistOf(tiers))
    ensures IsTierlist(TierlistOf(tiers[..k] + tiers[k + 1..]))
  {
    var rest := tiers[..k] + tiers[k + 1..];
    assert forall i :: 0 <= i < |rest| ==> rest[i] == tiers[if i < k then i else i + 1];
  }

  /**
   * A `nested` array holding a character that is not weapon-shaped and a
   * weapon that is not character-shaped is rejected, and so is every tier
   * that carries it.
   */
  lemma MixedNestedRejected(xs: seq<Json>, c: nat, w: nat, tier: Json)
    requires c < |xs| && IsCharacter(xs[c]) && "weaponType" !in xs[c].fields
    requires w < |xs| && IsWeapon(xs[w]) && "weapon" !in xs[w].fields
    requires tier.JObj? && "nested" in tier.fields && tier.fields["nested"] == JArr(xs)
    ensures !IsNested(JArr(xs))
    ensures !IsTier(tier)
    ensures forall tiers :: tier in tiers ==> !IsTierlist(TierlistOf(tiers))
  {
    assert !IsWeapon(xs[c]);
    assert !IsCharacter(xs[w]);
  }

  /** An empty `nested` array is accepted; both alternatives of the union would take it, and the character one is tried first. */
  lemma EmptyNestedAccepted()
    ensures AllCharacters([]) && AllWeapons([])
    ensures IsNested(JArr([]))
  {
  }

  /** A character whose own `nested` list holds something other than a weapon is rejected. */
  lemma CharacterNeedsWeapons(v: Json, k: nat)
    requires v.JObj? && "nested" in v.fields && v.fields["nested"].JArr?
    requires k < |v.fields["nested"].items| && !IsWeapon(v.fields["nested"].items[k])
    ensures !IsCharacter(v)
  {
  }
}

=== FILE: user_ids.dfy ===
/**
 * `addUser` derives the new id from the length of the list. Once `deleteUser`
 * has shortened the list, that id can belong to a record that is still
 * stored. This module exhibits the collision on the seeded store and gives a
 * corrected derivation (one more than the largest id) that keeps ids unique.
 */
module UserIds {
  import opened Wrappers
  import opened Users
  import opened UsersProperties

  /** Deleting record 1 and adding a user gives the new record id 2, already held by the other record. */
  lemma AddUserReusesId()
    ensures var afterDelete := DeleteUser(InitialUsers(), 1).users;
            var added := AddUser(afterDelete, NewUser("Newcomer", "Just arrived", "newcomer"));
            && added.result.id == 2
            && !UniqueIds(added.users)
            && SearchUserById(added.users, added.result.id) != Some(added.result)
            && SearchUserById(added.users, 2) == Some(InitialUsers()[1])
  {
    var afterDelete := DeleteUser(InitialUsers(), 1).users;
    DeleteShape(InitialUsers(), 1);
    assert afterDelete == [InitialUsers()[1]];
    var added := AddUser(afterDelete, NewUser("Newcomer", "Just arrived", "newcomer"));
    assert added.users[0].id == added.users[1].id;
    assert IsFirstWithId(added.users, 0, 2);
    FirstWithIdUnique(added.users, 0, FirstIndexOf(added.users, 2).value, 2);
  }

  /** The largest id in the store, or 0 when the store holds no positive id. */
  function MaxId(users: seq<User>): (m: nat)
    ensures forall i :: 0 <= i < |users| ==> users[i].id <= m
    ensures m == 0 || exists i :: 0 <= i < |users| && users[i].id == m
  {
    if |users| == 0 then 0
    else
      var rest := MaxId(users[..|users| - 1]);
      var last := users[|users| - 1].id;
      assert forall i :: 0 <= i < |users| - 1 ==> users[..|users| - 1][i] == users[i];
      if last > rest then last else rest
  }

  /** `addUser` with the id derived from the largest stored id instead of the length. */
  function AddUserFresh(users: seq<User>, newUser: NewUser): (r: Step<User>)
    ensures r.result.id > 0 && IdAbsent(users, r.result.id)
    ensures r.users == users + [r.result]
    ensures r.result.name == newUser.name && r.result.description == newUser.description
    ensures r.result.password == newUser.password
  {
    var u := User(MaxId(users) + 1, newUser.name, newUser.description, newUser.password);
    Step(users + [u], u)
  }

  /** The corrected `addUser` keeps ids unique, and the new record is what a search for its id finds. */
  lemma AddUserFreshKeepsUnique(users: seq<User>, newUser: NewUser)
    requires UniqueIds(users)
    ensures var r := AddUserFresh(users, newUser);
            UniqueIds(r.users) && SearchUserById(r.users, r.result.id) == Some(r.result)
  {
    var r := AddUserFresh(users, newUser);
    assert IsFirstWithId(r.users, |users|, r.result.id);
    FirstWithIdUnique(r.users, |users|, FirstIndexOf(r.users, r.result.id).value, r.result.id);
  }

  /** On a store holding ids 1..n the largest id is n. */
  lemma {:induction false} MaxIdSequential(users: seq<User>)
    requires Sequential(users)
    ensures MaxId(users) == |users|
  {
    if |users| > 0 {
      var prefix := users[..|users| - 1];
      assert forall i :: 0 <= i < |prefix| ==> prefix[i] == users[i];
      MaxIdSequential(prefix);
    }
  }

  /** On a store that was never deleted from, the correction changes nothing. */
  lemma AddUserFreshAgrees(users: seq<User>, newUser: NewUser)
    requires Sequential(users)
    ensures AddUserFresh(users, newUser) == AddUser(users, newUser)
  {
    MaxIdSequential(users);
  }

  /**
   * With a duplicated id, `updateUser` writes the overlaid first record over
   * the later one too: even an empty patch replaces the second record's name,
   * description and password with the first's.
   */
  lemma UpdateOverwritesDuplicate()
    ensures var users := [User(1, "a", "x", "p"), User(1, "b", "y", "q")];
            UpdateUser(users, 1, UserPatch(None, None, None)).users == [User(1, "a", "x", "p"), User(1, "a", "x", "p")]
  {
    var users := [User(1, "a", "x", "p"), User(1, "b", "y", "q")];
    assert IsFirstWithId(users, 0, 1);
    FirstWithIdUnique(users, 0, FirstIndexOf(users, 1).value, 1);
  }
}

=== FILE: user_schemas.dfy ===
/**
 * The user payload schemas of `src/types.ts`: the full record schema and the
 * four views derived from it by `omit`, `pick` and `partial`.
 *
 * Each view is built with the combinators, exactly as the source builds it,
 * and is then proved to mean what a field-by-field reading of its rules says
 * (the `Valid...` predicates below, written without the combinators).
 */
module UserSchemas {
  import opened Wrappers
  import opened Json
  import opened ObjectSchema

  const UsernameTooShort := "Username must be at least 3 characters"
  const PasswordTooShort := "Password must be at least 6 characters"
  const PasswordTooLong := "Password must not contain more than 50 characters"

  const PlainString := StringRule(None, None, false)

  const IdField := Field("_id", PlainString, true)
  const UsernameField := Field("username", StringRule(Some(Bound(3, UsernameTooShort)), None, false), false)
  const EmailField := Field("email", StringRule(None, None, true), false)
  const PasswordField :=
    Field("password", StringRule(Some(Bound(6, PasswordTooShort)), Some(Bound(50, PasswordTooLong)), false), false)
  const RoleField := Field("role", PlainString, true)

  /** The keys each derived view drops or keeps. */
  const PasswordKey: set<string> := {"password"}
  const ServerKeys: set<string> := {"_id", "role"}
  const CredentialKeys: set<string> := {"username", "password"}

  /** `userInfoSchema`. */
  function UserInfoSchema(): Schema {
    [IdField, UsernameField, EmailField, PasswordField, RoleField]
  }

  /** `userInfoNoSensitiveSchema`: the full schema without the password. */
  function UserInfoNoSensitiveSchema(): Schema {
    Omit(UserInfoSchema(), PasswordKey)
  }

  /** `newUserSchema`: the full schema without `_id` and `role`. */
  function NewUserSchema(): Schema {
    Omit(UserInfoSchema(), ServerKeys)
  }

  /** `loginUserSchema`: only username and password. */
  function LoginUserSchema(): Schema {
    Pick(UserInfoSchema(), CredentialKeys)
  }

  /** `updateUserSchema`: the new-user schema with every field optional. */
  function UpdateUserSchema(): Schema {
    Partial(NewUserSchema())
  }

  // ---------------------------------------------------------------------------
  // The rules, field by field

  predicate UsernameValid(v: Json) {
    v.JStr? && |v.s| >= 3
  }

  predicate EmailValid(isEmail: EmailCheck, v: Json) {
    v.JStr? && isEmail(v.s)
  }

  predicate PasswordValid(v: Json) {
    v.JStr? && 6 <= |v.s| <= 50
  }

  predicate ValidUserInfo(isEmail: EmailCheck, obj: map<string, Json>) {
    && OptionalString(obj, "_id")
    && "username" in obj && UsernameValid(obj["username"])
    && "email" in obj && EmailValid(isEmail, obj["email"])
    && "password" in obj && PasswordValid(obj["password"])
    && OptionalString(obj, "role")
  }

  predicate ValidNoSensitive(isEmail: EmailCheck, obj: map<string, Json>) {
    && OptionalString(obj, "_id")
    && "username" in obj && UsernameValid(obj["username"])
    && "email" in obj && EmailValid(isEmail, obj["email"])
    && OptionalString(obj, "role")
  }

  predicate ValidNewUser(isEmail: EmailCheck, obj: map<string, Json>) {
    && "username" in obj && UsernameValid(obj["username"])
    && "email" in obj && EmailValid(isEmail, obj["email"])
    && "password" in obj && PasswordValid(obj["password"])
  }

  predicate ValidLogin(obj: map<string, Json>) {
    && "username" in obj && UsernameValid(obj["username"])
    && "password" in obj && PasswordValid(obj["password"])
  }

  predicate ValidUpdate(isEmail: EmailCheck, obj: map<string, Json>) {
    && ("username" in obj ==> UsernameValid(obj["username"]))
    && ("email" in obj ==> EmailValid(isEmail, obj["email"]))
    && ("password" in obj ==> PasswordValid(obj["password"]))
  }

  // ---------------------------------------------------------------------------
  // The derived schemas, computed

  lemma NoSensitiveFields()
    ensures UserInfoNoSensitiveSchema() == [IdField, UsernameField, EmailField, RoleField]
  {
    var k := PasswordKey;
    assert Omit([RoleField], k) == [RoleField];
    assert Omit([PasswordField, RoleField], k) == [RoleField];
    assert Omit([EmailField, PasswordField, RoleField], k) == [EmailField, RoleField];
    assert Omit([UsernameField, EmailField, PasswordField, RoleField], k) == [UsernameField, EmailField, RoleField];
  }

  lemma NewUserFields()
    ensures NewUserSchema() == [UsernameField, EmailField, PasswordField]
  {
    var k := ServerKeys;
    assert Omit([RoleField], k) == [];
    assert Omit([PasswordField, RoleField], k) == [PasswordField];
    assert Omit([EmailField, PasswordField, RoleField], k) == [EmailField, PasswordField];
    assert Omit([UsernameField, EmailField, PasswordField, RoleField], k) == [UsernameField, EmailField, PasswordField];
  }

  lemma LoginFields()
    ensures LoginUserSchema() == [UsernameField, PasswordField]
  {
    var k := CredentialKeys;
    assert Pick([RoleField], k) == [];
    assert Pick([PasswordField, RoleField], k) == [PasswordField];
    assert Pick([EmailField, PasswordField, RoleField], k) == [PasswordField];
    assert Pick([UsernameField, EmailField, PasswordField, RoleField], k) == [UsernameField, PasswordField];
  }

  lemma UpdateFields()
    ensures UpdateUserSchema() ==
      [UsernameField.(optional := true), EmailField.(optional := true), PasswordField.(optional := true)]
  {
    NewUserFields();
  }

  lemma DerivedSchemas()
    ensures UserInfoNoSensitiveSchema() == [IdField, UsernameField, EmailField, RoleField]
    ensures NewUserSchema() == [UsernameField, EmailField, PasswordField]
    ensures LoginUserSchema() == [UsernameField, PasswordField]
    ensures UpdateUserSchema() ==
      [UsernameField.(optional := true), EmailField.(optional := true), PasswordField.(optional := true)]
  {
    NoSensitiveFields();
    NewUserFields();
    LoginFields();
    UpdateFields();
  }

  // ---------------------------------------------------------------------------
  // What each schema accepts

  /** What each of the five fields asks of a payload. */
  lemma FieldMeanings(isEmail: EmailCheck, obj: map<string, Json>)
    ensures FieldAccepts(isEmail, IdField, obj) <==> OptionalString(obj, "_id")
    ensures FieldAccepts(isEmail, UsernameField, obj) <==> "username" in obj && UsernameValid(obj["username"])
    ensures FieldAccepts(isEmail, EmailField, obj) <==> "email" in obj && EmailValid(isEmail, obj["email"])
    ensures FieldAccepts(isEmail, PasswordField, obj) <==> "password" in obj && PasswordValid(obj["password"])
    ensures FieldAccepts(isEmail, RoleField, obj) <==> OptionalString(obj, "role")
    ensures FieldAccepts(isEmail, UsernameField.(optional := true), obj) <==>
            ("username" in obj ==> UsernameValid(obj["username"]))
    ensures FieldAccepts(isEmail, EmailField.(optional := true), obj) <==>
            ("email" in obj ==> EmailValid(isEmail, obj["email"]))
    ensures FieldAccepts(isEmail, PasswordField.(optional := true), obj) <==>
            ("password" in obj ==> PasswordValid(obj["password"]))
  {
  }

  /** A schema of listed fields accepts exactly when each listed field does. */
  lemma AcceptsListed(isEmail: EmailCheck, s: Schema, obj: map<string, Json>)
    ensures |s| == 2 ==>
      (Accepts(isEmail, s, obj) <==> FieldAccepts(isEmail, s[0], obj) && FieldAccepts(isEmail, s[1], obj))
    ensures |s| == 3 ==>
      (Accepts(isEmail, s, obj) <==>
        FieldAccepts(isEmail, s[0], obj) && FieldAccepts(isEmail, s[1], obj) && FieldAccepts(isEmail, s[2], obj))
    ensures |s| == 4 ==>
      (Accepts(isEmail, s, obj) <==>
        FieldAccepts(isEmail, s[0], obj) && FieldAccepts(isEmail, s[1], obj) && FieldAccepts(isEmail, s[2], obj)
        && FieldAccepts(isEmail, s[3], obj))
    ensures |s| == 5 ==>
      (Accepts(isEmail, s, obj) <==>
        FieldAccepts(isEmail, s[0], obj) && FieldAccepts(isEmail, s[1], obj) && FieldAccepts(isEmail, s[2], obj)
        && FieldAccepts(isEmail, s[3], obj) && FieldAccepts(isEmail, s[4], obj))
  {
  }

  lemma UserInfoMeaning(isEmail: EmailCheck, obj: map<string, Json>)
    ensures Accepts(isEmail, UserInfoSchema(), obj) <==> ValidUserInfo(isEmail, obj)
  {
    AcceptsListed(isEmail, UserInfoSchema(), obj);
    FieldMeanings(isEmail, obj);
  }

  lemma NoSensitiveMeaning(isEmail: EmailCheck, obj: map<string, Json>)
    ensures Accepts(isEmail, UserInfoNoSensitiveSchema(), obj) <==> ValidNoSensitive(isEmail, obj)
  {
    NoSensitiveFields();
    AcceptsListed(isEmail, UserInfoNoSensitiveSchema(), obj);
    FieldMeanings(isEmail, obj);
  }

  lemma NewUserMeaning(isEmail: EmailCheck, obj: map<string, Json>)
    ensures Accepts(isEmail, NewUserSchema(), obj) <==> ValidNewUser(isEmail, obj)
  {
    NewUserFields();
    AcceptsListed(isEmail, NewUserSchema(), obj);
    FieldMeanings(isEmail, obj);
  }

  /** The login schema asks nothing of the email, whatever the email check is. */
  lemma LoginMeaning(isEmail: EmailCheck, obj: map<string, Json>)
    ensures Accepts(isEmail, LoginUserSchema(), obj) <==> ValidLogin(obj)
  {
    LoginFields();
    AcceptsListed(isEmail, LoginUserSchema(), obj);
    FieldMeanings(isEmail, obj);
  }

  lemma UpdateMeaning(isEmail: EmailCheck, obj: map<string, Json>)
    ensures Accepts(isEmail, UpdateUserSchema(), obj) <==> ValidUpdate(isEmail, obj)
  {
    UpdateFields();
    AcceptsListed(isEmail, UpdateUserSchema(), obj);
    FieldMeanings(isEmail, obj);
  }

  /** The login payload, as the login route hands it over whole: an object meeting the login rules. */
  lemma LoginPayloadMeaning(isEmail: EmailCheck, v: Json)
    ensures AcceptsPayload(isEmail, LoginUserSchema(), v) <==> v.JObj? && ValidLogin(v.fields)
  {
    if v.JObj? {
      LoginMeaning(isEmail, v.fields);
    }
  }

  lemma NewUserPayloadMeaning(isEmail: EmailCheck, v: Json)
    ensures AcceptsPayload(isEmail, NewUserSchema(), v) <==> v.JObj? && ValidNewUser(isEmail, v.fields)
  {
    if v.JObj? {
      NewUserMeaning(isEmail, v.fields);
    }
  }

  lemma UpdatePayloadMeaning(isEmail: EmailCheck, v: Json)
    ensures AcceptsPayload(isEmail, UpdateUserSchema(), v) <==> v.JObj? && ValidUpdate(isEmail, v.fields)
  {
    if v.JObj? {
      UpdateMeaning(isEmail, v.fields);
    }
  }

  // ---------------------------------------------------------------------------
  // How the views relate

  /** A full record passes every view derived from it. */
  lemma FullRecordPassesViews(isEmail: EmailCheck, obj: map<string, Json>)
    requires Accepts(isEmail, UserInfoSchema(), obj)
    ensures Accepts(isEmail, UserInfoNoSensitiveSchema(), obj)
    ensures Accepts(isEmail, NewUserSchema(), obj)
    ensures Accepts(isEmail, LoginUserSchema(), obj)
    ensures Accepts(isEmail, UpdateUserSchema(), obj)
  {
    OmitWeakens(isEmail, UserInfoSchema(), PasswordKey, obj);
    OmitWeakens(isEmail, UserInfoSchema(), ServerKeys, obj);
    PickWeakens(isEmail, UserInfoSchema(), CredentialKeys, obj);
    PartialWeakens(isEmail, NewUserSchema(), obj);
  }

  /** A valid registration payload is also a valid update and a valid login. */
  lemma NewUserPassesUpdateAndLogin(isEmail: EmailCheck, obj: map<string, Json>)
    requires Accepts(isEmail, NewUserSchema(), obj)
    ensures Accepts(isEmail, UpdateUserSchema(), obj)
    ensures Accepts(isEmail, LoginUserSchema(), obj)
  {
    NewUserMeaning(isEmail, obj);
    UpdateMeaning(isEmail, obj);
    LoginMeaning(isEmail, obj);
  }

  /** The empty update is valid. */
  lemma EmptyUpdateValid(isEmail: EmailCheck)
    ensures Accepts(isEmail, UpdateUserSchema(), map[])
  {
    PartialWeakens(isEmail, NewUserSchema(), map[]);
  }

  /** The full record is the no-sensitive view plus a valid password. */
  lemma FullIsNoSensitivePlusPassword(isEmail: EmailCheck, obj: map<string, Json>)
    ensures Accepts(isEmail, UserInfoSchema(), obj) <==>
            Accepts(isEmail, UserInfoNoSensitiveSchema(), obj) && "password" in obj && PasswordValid(obj["password"])
  {
    UserInfoMeaning(isEmail, obj);
    NoSensitiveMeaning(isEmail, obj);
  }

  // ---------------------------------------------------------------------------
  // Messages

  /** The no-sensitive view reports the full schema's issues except those about the password. */
  lemma NoSensitiveIssues(isEmail: EmailCheck, obj: map<string, Json>)
    ensures forall iss :: iss in Issues(isEmail, UserInfoNoSensitiveSchema(), obj) <==>
                          iss in Issues(isEmail, UserInfoSchema(), obj) && iss.path !in PasswordKey
  {
    OmitIssues(isEmail, UserInfoSchema(), PasswordKey, obj);
  }

  /** The new-user view reports the full schema's issues except those about `_id` and `role`. */
  lemma NewUserIssues(isEmail: EmailCheck, obj: map<string, Json>)
    ensures forall iss :: iss in Issues(isEmail, NewUserSchema(), obj) <==>
                          iss in Issues(isEmail, UserInfoSchema(), obj) && iss.path !in ServerKeys
  {
    OmitIssues(isEmail, UserInfoSchema(), ServerKeys, obj);
  }

  /** The login view reports only the full schema's issues about username and password. */
  lemma LoginIssues(isEmail: EmailCheck, obj: map<string, Json>)
    ensures forall iss :: iss in Issues(isEmail, LoginUserSchema(), obj) <==>
                          iss in Issues(isEmail, UserInfoSchema(), obj) && iss.path in CredentialKeys
  {
    PickIssues(isEmail, UserInfoSchema(), CredentialKeys, obj);
  }

  /** The update view reports the new-user view's issues except "required". */
  lemma UpdateIssues(isEmail: EmailCheck, obj: map<string, Json>)
    ensures forall iss :: iss in Issues(isEmail, UpdateUserSchema(), obj) <==>
                          iss in Issues(isEmail, NewUserSchema(), obj) && iss.kind != Required
  {
    PartialIssues(isEmail, NewUserSchema(), obj);
  }

  /** The issues that carry the messages the source spells out. */
  const UsernameShortIssue := Issue("username", TooShort(Bound(3, UsernameTooShort)))
  const PasswordShortIssue := Issue("password", TooShort(Bound(6, PasswordTooShort)))
  const PasswordLongIssue := Issue("password", TooLong(Bound(50, PasswordTooLong)))

  /** The payload holds a string at `key` with fewer than `n` characters. */
  predicate StringShorter(obj: map<string, Json>, key: string, n: nat) {
    key in obj && obj[key].JStr? && |obj[key].s| < n
  }

  /** The payload holds a string at `key` with more than `n` characters. */
  predicate StringLonger(obj: map<string, Json>, key: string, n: nat) {
    key in obj && obj[key].JStr? && |obj[key].s| > n
  }

  /** In the full schema, the issues at one field's key are exactly that field's issues. */
  lemma FullIssuesAt(isEmail: EmailCheck, obj: map<string, Json>, i: nat)
    requires i < |UserInfoSchema()|
    ensures forall iss: Issue :: iss.path == UserInfoSchema()[i].key ==>
                          (iss in Issues(isEmail, UserInfoSchema(), obj) <==> iss in FieldIssues(isEmail, UserInfoSchema()[i], obj))
  {
    var full := UserInfoSchema();
    assert forall j :: 0 <= j < |full| && j != i ==> full[j].key != full[i].key;
    IssueAtUniqueKey(isEmail, full, obj, i);
    FieldIssuesIncluded(isEmail, full, obj, i);
  }

  /**
   * The username message is reported exactly when the username is a string
   * shorter than 3 characters, by the full schema and every view that has the field.
   */
  lemma UsernameTooShortReported(isEmail: EmailCheck, obj: map<string, Json>)
    ensures CustomMessage(UsernameShortIssue.kind) == Some(UsernameTooShort)
    ensures UsernameShortIssue in Issues(isEmail, UserInfoSchema(), obj) <==> StringShorter(obj, "username", 3)
    ensures UsernameShortIssue in Issues(isEmail, UserInfoNoSensitiveSchema(), obj) <==> StringShorter(obj, "username", 3)
    ensures UsernameShortIssue in Issues(isEmail, NewUserSchema(), obj) <==> StringShorter(obj, "username", 3)
    ensures UsernameShortIssue in Issues(isEmail, LoginUserSchema(), obj) <==> StringShorter(obj, "username", 3)
    ensures UsernameShortIssue in Issues(isEmail, UpdateUserSchema(), obj) <==> StringShorter(obj, "username", 3)
  {
    var short := StringShorter(obj, "username", 3);
    assert UsernameShortIssue in FieldIssues(isEmail, UsernameField, obj) <==> short;
    UsernameViews(isEmail, obj, UsernameShortIssue, short);
  }

  /**
   * The too-short password message is reported exactly when the password is a
   * string shorter than 6 characters, by every schema that has the field.
   */
  lemma PasswordTooShortReported(isEmail: EmailCheck, obj: map<string, Json>)
    ensures CustomMessage(PasswordShortIssue.kind) == Some(PasswordTooShort)
    ensures PasswordShortIssue in Issues(isEmail, UserInfoSchema(), obj) <==> StringShorter(obj, "password", 6)
    ensures PasswordShortIssue in Issues(isEmail, NewUserSchema(), obj) <==> StringShorter(obj, "password", 6)
    ensures PasswordShortIssue in Issues(isEmail, LoginUserSchema(), obj) <==> StringShorter(obj, "password", 6)
    ensures PasswordShortIssue in Issues(isEmail, UpdateUserSchema(), obj) <==> StringShorter(obj, "password", 6)
  {
    var short := StringShorter(obj, "password", 6);
    assert PasswordShortIssue in FieldIssues(isEmail, PasswordField, obj) <==> short;
    PasswordViews(isEmail, obj, PasswordShortIssue, short);
  }

  /**
   * The too-long password message is reported exactly when the password is a
   * string longer than 50 characters, by every schema that has the field.
   */
  lemma PasswordTooLongReported(isEmail: EmailCheck, obj: map<string, Json>)
    ensures CustomMessage(PasswordLongIssue.kind) == Some(PasswordTooLong)
    ensures PasswordLongIssue in Issues(isEmail, UserInfoSchema(), obj) <==> StringLonger(obj, "password", 50)
    ensures PasswordLongIssue in Issues(isEmail, NewUserSchema(), obj) <==> StringLonger(obj, "password", 50)
    ensures PasswordLongIssue in Issues(isEmail, LoginUserSchema(), obj) <==> StringLonger(obj, "password", 50)
    ensures PasswordLongIssue in Issues(isEmail, UpdateUserSchema(), obj) <==> StringLonger(obj, "password", 50)
  {
    var long := StringLonger(obj, "password", 50);
    assert PasswordLongIssue in FieldIssues(isEmail, PasswordField, obj) <==> long;
    PasswordViews(isEmail, obj, PasswordLongIssue, long);
  }

  /** A username issue other than "required" is reported by every schema exactly when the username field reports it (`holds` names that condition). */
  lemma UsernameViews(isEmail: EmailCheck, obj: map<string, Json>, iss: Issue, holds: bool)
    requires iss.path == "username" && iss.kind != Required
    requires iss in FieldIssues(isEmail, UsernameField, obj) <==> holds
    ensures iss in Issues(isEmail, UserInfoSchema(), obj) <==> holds
    ensures iss in Issues(isEmail, UserInfoNoSensitiveSchema(), obj) <==> holds
    ensures iss in Issues(isEmail, NewUserSchema(), obj) <==> holds
    ensures iss in Issues(isEmail, LoginUserSchema(), obj) <==> holds
    ensures iss in Issues(isEmail, UpdateUserSchema(), obj) <==> holds
  {
    FullIssuesAt(isEmail, obj, 1);
    var inFull := iss in Issues(isEmail, UserInfoSchema(), obj);
    assert iss in Issues(isEmail, UserInfoNoSensitiveSchema(), obj) <==> inFull by {
      assert "username" !in PasswordKey;
      NoSensitiveIssues(isEmail, obj);
    }
    assert iss in Issues(isEmail, NewUserSchema(), obj) <==> inFull by {
      assert "username" !in ServerKeys;
      NewUserIssues(isEmail, obj);
    }
    assert iss in Issues(isEmail, LoginUserSchema(), obj) <==> inFull by {
      assert "username" in CredentialKeys;
      LoginIssues(isEmail, obj);
    }
    assert iss in Issues(isEmail, UpdateUserSchema(), obj) <==> iss in Issues(isEmail, NewUserSchema(), obj) by {
      UpdateIssues(isEmail, obj);
    }
  }

  /** A password issue other than "required" is reported by every schema with the field exactly when the password field reports it (`holds` names that condition). */
  lemma PasswordViews(isEmail: EmailCheck, obj: map<string, Json>, iss: Issue, holds: bool)
    requires iss.path == "password" && iss.kind != Required
    requires iss in FieldIssues(isEmail, PasswordField, obj) <==> holds
    ensures iss in Issues(isEmail, UserInfoSchema(), obj) <==> holds
    ensures iss in Issues(isEmail, NewUserSchema(), obj) <==> holds
    ensures iss in Issues(isEmail, LoginUserSchema(), obj) <==> holds
    ensures iss in Issues(isEmail, UpdateUserSchema(), obj) <==> holds
  {
    FullIssuesAt(isEmail, obj, 3);
    var inFull := iss in Issues(isEmail, UserInfoSchema(), obj);
    assert iss in Issues(isEmail, NewUserSchema(), obj) <==> inFull by {
      assert "password" !in ServerKeys;
      NewUserIssues(isEmail, obj);
    }
    assert iss in Issues(isEmail, LoginUserSchema(), obj) <==> inFull by {
      assert "password" in CredentialKeys;
      LoginIssues(isEmail, obj);
    }
    assert iss in Issues(isEmail, UpdateUserSchema(), obj) <==> iss in Issues(isEmail, NewUserSchema(), obj) by {
      UpdateIssues(isEmail, obj);
    }
  }
}

=== FILE: users.dfy ===
/**
 * The in-memory user store of `src/services/users.ts`.
 *
 * The source keeps one module-level array of records and mutates it. Here the
 * array is an explicit `seq<User>`: every operation takes the list as it was
 * and returns a `Step` holding the list as it is afterwards together with the
 * value the source function returns. `None` stands for `undefined`.
 */
module Users {
  import opened Wrappers
  import opened Seqs

  /** A stored record `{id, name, description, password}`. */
  datatype User = User(id: int, name: string, description: string, password: string)

  /** The record as handed out without its password. */
  datatype PublicUser = PublicUser(id: int, name: string, description: string)

  /** The payload `addUser` takes. */
  datatype NewUser = NewUser(name: string, description: string, password: string)

  /** A `Partial<NewUser>`: a field that is `None` is absent from the object. */
  datatype UserPatch = UserPatch(name: Option<string>, description: Option<string>, password: Option<string>)

  /** The store after an operation, and the operation's return value. */
  datatype Step<T> = Step(users: seq<User>, result: T)

  /** The two records the store starts with. */
  function InitialUsers(): seq<User> {
    [ User(1, "YaikaRace", "The best streamer", "yaikarace"),
      User(2, "YahirKurosaki", "A normal person", "yahirkurosaki") ]
  }

  // ---------------------------------------------------------------------------
  // Vocabulary for the contracts

  predicate IdAbsent(users: seq<User>, id: int) {
    forall j :: 0 <= j < |users| ==> users[j].id != id
  }

  /** `i` is the position of the first record whose id is `id`. */
  predicate IsFirstWithId(users: seq<User>, i: int, id: int) {
    && 0 <= i < |users|
    && users[i].id == id
    && forall j :: 0 <= j < i ==> users[j].id != id
  }

  /** No two records share an id. */
  predicate UniqueIds(users: seq<User>) {
    forall i, j :: 0 <= i < j < |users| ==> users[i].id != users[j].id
  }

  function Ids(users: seq<User>): (r: seq<int>)
    ensures |r| == |users|
    ensures forall i :: 0 <= i < |users| ==> r[i] == users[i].id
  {
    seq(|users|, i requires 0 <= i < |users| => users[i].id)
  }

  lemma FirstWithIdUnique(users: seq<User>, i: int, k: int, id: int)
    requires IsFirstWithId(users, i, id) && IsFirstWithId(users, k, id)
    ensures i == k
  {
  }

  // ---------------------------------------------------------------------------
  // Reads

  /** `getUsers` hands out the list itself. */
  function GetUsers(users: seq<User>): seq<User> {
    users
  }

  function WithoutPassword(u: User): PublicUser {
    PublicUser(u.id, u.name, u.description)
  }

  /** `getUsersNoPassword`: every record, in order, with only id, name and description. */
  function GetUsersNoPassword(users: seq<User>): (r: seq<PublicUser>)
    ensures |r| == |users|
    ensures forall i :: 0 <= i < |users| ==>
      r[i].id == users[i].id && r[i].name == users[i].name && r[i].description == users[i].description
  {
    seq(|users|, i requires 0 <= i < |users| => WithoutPassword(users[i]))
  }

  /** `findIndex((user) => user.id === id)`. */
  function FirstIndexOf(users: seq<User>, id: int): (r: Option<nat>)
    ensures r.None? <==> IdAbsent(users, id)
    ensures r.Some? ==> IsFirstWithId(users, r.value, id)
  {
    var p := (u: User) => u.id == id;
    var r := FindIndex(users, p);
    assert r.Some? ==> forall j :: 0 <= j < r.value ==> users[j].id != id by {
      if r.Some? {
        assert forall j :: 0 <= j < r.value ==> users[..r.value][j] == users[j];
      }
    }
    r
  }

  /** `searchUserById`: the first record with that id, password included. */
  function SearchUserById(users: seq<User>, id: int): (r: Option<User>)
    ensures r.None? <==> IdAbsent(users, id)
    ensures r.Some? ==> exists i :: IsFirstWithId(users, i, id) && users[i] == r.value
  {
    match FirstIndexOf(users, id)
    case None => None
    case Some(i) => Some(users[i])
  }

  /**
   * `searchUserByIdNoPassword` searches the stripped list; the answer is the
   * stripped form of what `searchUserById` finds.
   */
  function SearchUserByIdNoPassword(users: seq<User>, id: int): (r: Option<PublicUser>)
    ensures r == SearchUserById(users, id).Map(WithoutPassword)
  {
    var pub := GetUsersNoPassword(users);
    var r := Find(pub, (p: PublicUser) => p.id == id);
    assert r.Some? ==> exists i :: IsFirstWithId(users, i, id) && r.value == WithoutPassword(users[i]) by {
      if r.Some? {
        var i :| 0 <= i < |pub| && pub[i] == r.value && pub[i].id == id
                 && NoneMatch(pub[..i], (p: PublicUser) => p.id == id);
        assert forall j :: 0 <= j < i ==> pub[..i][j] == pub[j];
        assert IsFirstWithId(users, i, id);
      }
    }
    assert forall j :: 0 <= j < |users| ==> pub[j].id == users[j].id;
    r
  }

  // ---------------------------------------------------------------------------
  // Writes

  /** `addUser`: appends a record whose id is the old length plus one. */
  function AddUser(users: seq<User>, newUser: NewUser): (r: Step<User>)
    ensures |r.users| == |users| + 1
    ensures r.users[..|users|] == users
    ensures r.users[|users|] == r.result
    ensures r.result.id == |users| + 1
    ensures r.result.name == newUser.name && r.result.description == newUser.description
    ensures r.result.password == newUser.password
  {
    var u := User(|users| + 1, newUser.name, newUser.description, newUser.password);
    Step(users + [u], u)
  }

  /** `{ ...user, ...newData }`: every field present in the patch replaces the record's own. */
  function Overlay(u: User, patch: UserPatch): User {
    User(u.id, patch.name.GetOr(u.name), patch.description.GetOr(u.description),
         patch.password.GetOr(u.password))
  }

  /**
   * `updateUser`: the overlaid first match is written over EVERY record with
   * that id (the source compares ids, and the overlay carries all four fields
   * of the first match), and is returned.
   */
  function UpdateUser(users: seq<User>, id: int, patch: UserPatch): (r: Step<Option<User>>)
    ensures IdAbsent(users, id) ==> r.users == users && r.result.None?
    ensures !IdAbsent(users, id) ==> r.result.Some?
    ensures r.result.Some? ==> exists i :: IsFirstWithId(users, i, id) && r.result.value == Overlay(users[i], patch)
    ensures |r.users| == |users|
    ensures forall i :: 0 <= i < |users| && users[i].id != id ==> r.users[i] == users[i]
    ensures forall i :: 0 <= i < |users| && users[i].id == id ==> r.users[i] == r.result.value
  {
    match SearchUserById(users, id)
    case None => Step(users, None)
    case Some(found) =>
      var updated := Overlay(found, patch);
      Step(seq(|users|, i requires 0 <= i < |users| =>
             if users[i].id == updated.id then updated else users[i]),
           Some(updated))
  }

  /**
   * `deleteUser`: cuts the first record with that id out of the list and
   * returns it in a one-element list.
   */
  function DeleteUser(users: seq<User>, id: int): (r: Step<Option<seq<User>>>)
    ensures IdAbsent(users, id) ==> r.users == users && r.result.None?
    ensures !IdAbsent(users, id) ==> |r.users| == |users| - 1
    ensures !IdAbsent(users, id) ==>
      (exists i :: && IsFirstWithId(users, i, id)
                   && r.result == Some([users[i]])
                   && r.users[..i] == users[..i] && r.users[i..] == users[i + 1..])
    ensures r.result.Some? ==> |r.result.value| == 1 && multiset(r.users) + multiset(r.result.value) == multiset(users)
  {
    match FirstIndexOf(users, id)
    case None => Step(users, None)
    case Some(i) =>
      var rest := RemoveAt(users, i);
      assert rest[..i] == users[..i];
      assert rest[i..] == users[i + 1..];
      Step(rest, Some([users[i]]))
  }
}

=== FILE: users_properties.dfy ===
/**
 * Properties of the user store that relate several operations, or an
 * operation to the invariant "no two records share an id".
 */
module UsersProperties {
  import opened Wrappers
  import opened Users
  import Seqs

  /** The ids are exactly 1, 2, ..., n in order: the shape of a store that was never deleted from. */
  predicate Sequential(users: seq<User>) {
    forall i :: 0 <= i < |users| ==> users[i].id == i + 1
  }

  lemma InitialUsersSequential()
    ensures Sequential(InitialUsers()) && UniqueIds(InitialUsers())
  {
  }

  lemma SequentialUnique(users: seq<User>)
    requires Sequential(users)
    ensures UniqueIds(users)
    ensures IdAbsent(users, |users| + 1)
  {
  }

  // ---------------------------------------------------------------------------
  // addUser

  /** Appending never changes which record a search for an existing id finds. */
  lemma AddKeepsSearches(users: seq<User>, newUser: NewUser, id: int)
    requires !IdAbsent(users, id)
    ensures SearchUserById(AddUser(users, newUser).users, id) == SearchUserById(users, id)
  {
    var after := AddUser(users, newUser).users;
    var i := FirstIndexOf(users, id).value;
    assert IsFirstWithId(after, i, id);
    FirstWithIdUnique(after, i, FirstIndexOf(after, id).value, id);
  }

  /** When the derived id is new, the appended record is what a search for it finds. */
  lemma AddThenSearch(users: seq<User>, newUser: NewUser)
    requires IdAbsent(users, |users| + 1)
    ensures var r := AddUser(users, newUser);
            SearchUserById(r.users, r.result.id) == Some(r.result)
  {
    var r := AddUser(users, newUser);
    assert IsFirstWithId(r.users, |users|, r.result.id);
    var k :| IsFirstWithId(r.users, k, r.result.id) && r.users[k] == SearchUserById(r.users, r.result.id).value;
    FirstWithIdUnique(r.users, |users|, k, r.result.id);
  }

  /** Without deletions the store stays 1..n, so `addUser` keeps ids unique. */
  lemma AddKeepsSequential(users: seq<User>, newUser: NewUser)
    requires Sequential(users)
    ensures Sequential(AddUser(users, newUser).users)
    ensures UniqueIds(AddUser(users, newUser).users)
  {
    var after := AddUser(users, newUser).users;
    assert forall i :: 0 <= i < |users| ==> after[i] == users[i];
    SequentialUnique(after);
  }

  // ---------------------------------------------------------------------------
  // updateUser

  /** After an update, searching the id finds the value the update returned. */
  lemma UpdateThenSearch(users: seq<User>, id: int, patch: UserPatch)
    ensures var r := UpdateUser(users, id, patch);
            SearchUserById(r.users, id) == r.result
  {
    var r := UpdateUser(users, id, patch);
    if !IdAbsent(users, id) {
      var i :| IsFirstWithId(users, i, id) && r.result.value == Overlay(users[i], patch);
      assert IsFirstWithId(r.users, i, id);
      var k :| IsFirstWithId(r.users, k, id) && r.users[k] == SearchUserById(r.users, id).value;
      FirstWithIdUnique(r.users, i, k, id);
    }
  }

  /** An update never changes any record's id, so it keeps ids unique. */
  lemma UpdateKeepsIds(users: seq<User>, id: int, patch: UserPatch)
    ensures Ids(UpdateUser(users, id, patch).users) == Ids(users)
    ensures UniqueIds(users) ==> UniqueIds(UpdateUser(users, id, patch).users)
  {
    var r := UpdateUser(users, id, patch);
    if !IdAbsent(users, id) {
      var i :| IsFirstWithId(users, i, id) && r.result.value == Overlay(users[i], patch);
    }
    assert forall j :: 0 <= j < |users| ==> r.users[j].id == users[j].id;
  }

  /**
   * When ids are unique, the record with that id is its own fields overridden
   * by the patch, and every other record is untouched.
   */
  lemma UpdateOverlaysOwnFields(users: seq<User>, id: int, patch: UserPatch)
    requires UniqueIds(users)
    ensures var r := UpdateUser(users, id, patch);
            forall i :: 0 <= i < |users| ==>
              r.users[i] == (if users[i].id == id then Overlay(users[i], patch) else users[i])
  {
    var r := UpdateUser(users, id, patch);
    forall i | 0 <= i < |users| && users[i].id == id
      ensures r.users[i] == Overlay(users[i], patch)
    {
      var k :| IsFirstWithId(users, k, id) && r.result.value == Overlay(users[k], patch);
      assert !(k < i) && !(i < k);
    }
  }

  /** With unique ids, patching with nothing leaves the store as it was. */
  lemma UpdateEmptyPatch(users: seq<User>, id: int)
    requires UniqueIds(users)
    ensures UpdateUser(users, id, UserPatch(None, None, None)).users == users
  {
    UpdateOverlaysOwnFields(users, id, UserPatch(None, None, None));
  }

  /** Applying the same patch twice is the same as applying it once. */
  lemma UpdateIdempotent(users: seq<User>, id: int, patch: UserPatch)
    ensures var once := UpdateUser(users, id, patch);
            UpdateUser(once.users, id, patch) == once
  {
    var once := UpdateUser(users, id, patch);
    var twice := UpdateUser(once.users, id, patch);
    if !IdAbsent(users, id) {
      var i :| IsFirstWithId(users, i, id) && once.result.value == Overlay(users[i], patch);
      assert IsFirstWithId(once.users, i, id);
      var k :| IsFirstWithId(once.users, k, id) && twice.result.value == Overlay(once.users[k], patch);
      FirstWithIdUnique(once.users, i, k, id);
      assert twice.users == once.users;
    }
  }

  // ---------------------------------------------------------------------------
  // deleteUser

  /** Unfolds `deleteUser` on a present id: the first match is cut out and returned. */
  lemma DeleteShape(users: seq<User>, id: int)
    requires !IdAbsent(users, id)
    ensures var i := FirstIndexOf(users, id).value;
            var r := DeleteUser(users, id);
            && r.result == Some([users[i]])
            && |r.users| == |users| - 1
            && (forall j :: 0 <= j < i ==> r.users[j] == users[j])
            && (forall j :: i <= j < |r.users| ==> r.users[j] == users[j + 1])
  {
  }

  /** Putting the returned record back where it was cut out restores the store. */
  lemma DeleteRestores(users: seq<User>, id: int)
    requires !IdAbsent(users, id)
    ensures var i := FirstIndexOf(users, id).value;
            var r := DeleteUser(users, id);
            r.users[..i] + r.result.value + r.users[i..] == users
  {
    Seqs.RemoveAtInverse(users, FirstIndexOf(users, id).value);
  }

  /** Deleting one id does not change what a search for any other id finds. */
  lemma DeleteKeepsOtherSearches(users: seq<User>, id: int, other: int)
    requires other != id
    ensures SearchUserById(DeleteUser(users, id).users, other) == SearchUserById(users, other)
  {
    var r := DeleteUser(users, id);
    if !IdAbsent(users, id) {
      var i := FirstIndexOf(users, id).value;
      DeleteShape(users, id);
      if IdAbsent(users, other) {
        assert IdAbsent(r.users, other) by {
          forall j | 0 <= j < |r.users| ensures r.users[j].id != other {
            if j >= i { assert r.users[j] == users[j + 1]; }
          }
        }
      } else {
        var a := FirstIndexOf(users, other).value;
        var a' := if a < i then a else a - 1;
        assert IsFirstWithId(r.users, a', other) by {
          forall j | 0 <= j < a' ensures r.users[j].id != other {
            if j >= i { assert r.users[j] == users[j + 1]; }
          }
        }
        FirstWithIdUnique(r.users, a', FirstIndexOf(r.users, other).value, other);
      }
    }
  }

  /** With unique ids, a deleted id is gone and ids stay unique. */
  lemma DeleteRemovesId(users: seq<User>, id: int)
    requires UniqueIds(users)
    ensures IdAbsent(DeleteUser(users, id).users, id)
    ensures UniqueIds(DeleteUser(users, id).users)
  {
    var r := DeleteUser(users, id);
    if !IdAbsent(users, id) {
      var i := FirstIndexOf(users, id).value;
      DeleteShape(users, id);
      assert forall j :: 0 <= j < |r.users| ==> r.users[j] == users[if j < i then j else j + 1];
    }
  }
}

=== FILE: wrappers.dfy ===
/** The optional value used where the source returns `undefined` for "nothing found". */
module Wrappers {

  datatype Option<+T> = None | Some(value: T) {

    /** The wrapped value, or `default` when there is none. */
    function GetOr(default: T): T {
      match this
      case Some(v) => v
      case None => default
    }

    /** Applies `f` to the wrapped value, if any. */
    function Map<U>(f: T -> U): (r: Option<U>)
      ensures r.Some? <==> this.Some?
      ensures r.Some? ==> r.value == f(this.value)
    {
      match this
      case Some(v) => Some(f(v))
      case None => None
    }
  }
}
